=== FILE: README.md ===
# Contact form of the Funeraria La Candelaria site, in Dafny

The site has one piece of real logic: the contact form's validation and
submission lifecycle. It exists in two versions that disagree with each other,
and each is modelled on its own:

- the React component `components/funeraria/Contacto.tsx` (module `Contacto`):
  `validateForm` builds a fresh error map from the five field values;
  `handleChange` stores a value and clears that field's error; `handleSubmit`
  runs a small lifecycle over `(formData, errors, isSubmitting, submitStatus)`:
  validate, then submitting, then success (form reset, five-second
  auto-dismiss) or error (values kept);
- the standalone page script `public/js/main.js` (module `MainScript`):
  `validateField` trims first and applies a different rule set. Phone and
  subject are required there, e-mail is optional, and name and message have
  minimum lengths. It shows or clears the field's error. The submit listener
  validates every field before sending. The module `WhatsApp` models
  `formatPhoneForWhatsApp` and `generateWhatsAppLink`.

Shared pieces are defined once:

- `Text`: JavaScript's `\s` class, `trim`, and small string helpers.
- `EmailSyntax`: the e-mail regular expression
  `^[^\s@]+@[^\s@]+\.[^\s@]+$`. It is stated as the language the expression
  denotes (a split into local part, `@`, host, `.`, top-level part), and it is
  proved equal to "no whitespace, exactly one `@`, non-empty local part, a dot
  inside the domain".
- `Fields`: the field names and the value record.

`Divergence` proves where the two rule sets agree and gives concrete inputs
where they differ.

The React state machine is a pure transition function `Contacto.Step` over
events. The events are a field change, a submit click, the delivery settling
(`Deliver(delivered)`, the outcome being a parameter) and one auto-dismiss
timer firing (`Tick`, handled by `Contacto.Dismiss`). The state counts the
dismiss timers still pending. The source never cancels them, so a timer left
over from an earlier success cuts a second success banner short
(`Contacto.StaleDismissEndsSecondSuccess`). The same holds for a later error
banner (`Contacto.StaleDismissHidesError`), although the simulated delivery
in the source never fails, so that case needs a failing delivery. The
source has no re-entry test inside `handleSubmit`. The only guard is the submit
button, disabled while `isSubmitting` holds. `BeginSubmit` models that guard
with `requires !s.isSubmitting`, and `Step` treats a click while submitting as
a no-op.

Three facts about the code shape the model:

- The React status has no `submitting` value. The in-flight flag is the
  separate boolean `isSubmitting`, and the status stays `idle` while it is set.
- The React form has no per-field validation on blur. Only `validateForm` runs,
  on submit.
- The script's rule set differs from the React one (required phone and
  subject, optional e-mail, minimum lengths, no parentheses in phones).

## Model

| member | source | states |
|---|---|---|
| Text.Trim | public/js/main.js:291 | `trim` returns a core with no whitespace at either end; the core is empty exactly when the whole value is whitespace |
| Text.TrimDecomposition | public/js/main.js:291 | the value is the trimmed core with only whitespace before and after it, at the position where leading whitespace ends |
| Text.TrimOfPadded | components/funeraria/Contacto.tsx:98 | whatever whitespace surrounds a tight core, trimming returns exactly that core (uniqueness of the decomposition) |
| Text.TrimIdempotent | public/js/main.js:291 | trimming a trimmed value changes nothing |
| EmailSyntax.EmailPatternIsShape | components/funeraria/Contacto.tsx:105 | the e-mail regular expression matches exactly the strings with no whitespace, exactly one `@`, a non-empty local part and a domain with a `.` that has a character on each side |
| EmailSyntax.EmailPatternIsTight | public/js/main.js:318 | every string the e-mail pattern accepts is non-empty and starts and ends with a non-whitespace character |
| Contacto.FieldError | components/funeraria/Contacto.tsx:98-117 | per field: name and message err (with their "requerido" message) exactly when blank; e-mail is clean exactly when the untrimmed value matches the pattern, "requerido" when blank and "válido" otherwise; phone is clean exactly when empty or matching the phone pattern; the subject never errs |
| Fields.FormData.Set | components/funeraria/Contacto.tsx:128 | `{ ...prev, [name]: value }`: the named field holds the new value and every other field keeps its own |
| Contacto.FormErrors.Clear | components/funeraria/Contacto.tsx:131 | `{ ...prev, [name]: undefined }`: the named entry becomes absent and every other entry keeps its message |
| Contacto.FormErrors.Size | components/funeraria/Contacto.tsx:120 | the key count is at most four and is zero exactly when no field has an error |
| Contacto.ValidateForm | components/funeraria/Contacto.tsx:94-121 | the error map is rebuilt whole, one rule per field; the result is true exactly when the map has no entries, which is exactly when the values are acceptable (non-blank name and message, e-mail matching the pattern, empty or well-formed phone) |
| Contacto.NombreErrorIff | components/funeraria/Contacto.tsx:98-100 | a name error (always the "requerido" message) is set exactly when the trimmed name is empty |
| Contacto.EmailErrorCases | components/funeraria/Contacto.tsx:103-107 | a blank e-mail gets "requerido"; otherwise the untrimmed value is tested and a failure gets "válido"; no error exactly when the pattern matches |
| Contacto.LeadingSpaceEmailInvalid | components/funeraria/Contacto.tsx:103-107 | an e-mail value that reaches the handler with a leading whitespace character (and is not blank) is always reported invalid; in a browser only whitespace other than tab, line feed, form feed, carriage return and space (for example U+000B, U+00A0, U+3000) survives to the handler (see Left out) |
| Contacto.TelefonoErrorIff | components/funeraria/Contacto.tsx:110-112 | an empty phone never errors; a non-empty one errors exactly when it is not 7 to 15 characters of digits, whitespace, `-`, `+`, `(`, `)` |
| Contacto.AsuntoIgnored | components/funeraria/Contacto.tsx:79-84 | the subject has no error entry, and changing it changes neither the verdict nor the error map |
| Contacto.HandleChange | components/funeraria/Contacto.tsx:124-133 | the named field holds the new value and every other field keeps its own; the field's error becomes absent and every other error entry is unchanged; submission flags are untouched |
| Contacto.BeginSubmit | components/funeraria/Contacto.tsx:136-142 | the errors become the fresh validation result; invalid values leave data, flag and status as they were; acceptable values set the in-flight flag with the status idle and no errors |
| Contacto.FinishSubmit | components/funeraria/Contacto.tsx:144-158 | the in-flight flag is released either way; a delivered message resets the form, shows success and schedules one dismiss timer; a failed one shows the error banner and keeps the values |
| Contacto.Dismiss | components/funeraria/Contacto.tsx:153 | a pending dismiss timer sets the status to idle and changes nothing else; with none pending nothing happens |
| Contacto.HandleSubmit | components/funeraria/Contacto.tsx:136-159 | an uninterrupted submit: invalid values only replace the (now non-empty) errors; acceptable values end with success, an empty form and no errors, or with the error banner and the values kept |
| Contacto.Step | components/funeraria/Contacto.tsx:124-158 | event dispatch: a change stores the value and clears its error; a click while submitting (the button is disabled, line 377) and a delivery with nothing in flight change nothing; a click otherwise validates and goes in flight exactly when the values are acceptable; a delivery releases the flag with the success banner exactly when delivered; a tick keeps data, errors and flag and, with a timer pending, sets the banner idle |
| Contacto.DismissAfterSuccess | components/funeraria/Contacto.tsx:149-153 | after a successful submit, the dismiss tick sets the status to idle and changes nothing but the timer count |
| Contacto.StepInv | components/funeraria/Contacto.tsx:124-158 | every event preserves the invariant: each displayed error is the one the field's current value earns, and while a submission is in flight no error and no banner is shown |
| Contacto.RunInv | components/funeraria/Contacto.tsx:86-159 | the invariant holds after any sequence of events from a state that has it |
| Contacto.StaleDismissHidesError | components/funeraria/Contacto.tsx:153 | a dismiss timer from an earlier success still fires after a later failed submission and hides its error banner |
| Contacto.StaleDismissEndsSecondSuccess | components/funeraria/Contacto.tsx:150-153 | a dismiss timer from an earlier success, still pending, returns a later success banner to idle while that banner's own timer has not fired yet |
| Contacto.BlankNameBlocks | components/funeraria/Contacto.tsx:98-100 | submitting any values with a blank name is blocked, shows the name error and leaves the values and the banner as they were |
| Contacto.MalformedEmailBlocks | components/funeraria/Contacto.tsx:103-107 | submitting any non-blank e-mail that does not match the pattern is blocked with the invalid-e-mail message, values and banner unchanged |
| Contacto.NotAnEmail | components/funeraria/Contacto.tsx:105 | `not-an-email` is not blank and does not match the e-mail pattern |
| Contacto.SubmissionLifecycle | components/funeraria/Contacto.tsx:141-157 | with acceptable values, event by event: submitting with the banner idle; then success with an empty form and idle again after the tick, or the error banner with the values kept |
| Contacto.SampleLifecycle | components/funeraria/Contacto.tsx:136-153 | a fresh form filled with well-formed sample values goes in flight and, once delivered, ends in success with the initial empty values |
| MainScript.CheckTrimmed | public/js/main.js:295-340 | the switch marks a field invalid exactly when it picks an error message (every message is non-empty) |
| MainScript.FieldCheckTightOrBlank | public/js/main.js:291 | `validateField` trims first: the verdict on the raw value is valid exactly when no message is chosen, a value without surrounding whitespace is judged as typed, and an all-whitespace one as empty |
| MainScript.FieldCheckIgnoresPadding | public/js/main.js:291 | whitespace typed around a value never changes its verdict or message |
| MainScript.NombreRule | public/js/main.js:296-304 | name: blank gives "required", one or two characters give "minLength", valid exactly when at least three characters remain after trimming |
| MainScript.TelefonoRule | public/js/main.js:306-314 | phone: blank gives "required"; valid exactly when the trimmed value is 7 to 15 digits, whitespace, `-` or `+`; any parenthesis makes it invalid |
| MainScript.EmailRule | public/js/main.js:316-322 | e-mail: blank is valid; otherwise valid exactly when the trimmed value matches the e-mail pattern, and a failure gives the invalid message |
| MainScript.AsuntoMensajeRules | public/js/main.js:324-339 | subject valid exactly when not blank; message valid exactly when at least ten characters remain after trimming, blank giving "required" |
| MainScript.ShowError | public/js/main.js:356-368 | the field's error is displayed with the message; other fields' displays are unchanged |
| MainScript.ClearError | public/js/main.js:374-386 | the field's error display is removed; other fields' displays are unchanged |
| MainScript.ValidateField | public/js/main.js:289-349 | the result is the trimmed value's verdict; an invalid field shows its non-empty message, a valid one has its error cleared, and no other field's display or value changes |
| MainScript.ValidateFieldIdempotent | public/js/main.js:289-349 | validating the same field twice with an unchanged value gives the same verdict and display as once |
| MainScript.OnInput | public/js/main.js:259-262 | typing stores the value and clears only that field's error; other fields keep value and display |
| MainScript.DisplaySoundPreserved | public/js/main.js:252-264 | blur validation and typing keep every displayed error equal to the message the field's current value earns |
| MainScript.SubmitGate | public/js/main.js:267-282 | every field is validated with no short-circuit, so the display afterwards depends on the values alone (exactly the invalid fields show their messages); the form is sent exactly when every field is valid |
| MainScript.RefreshedSound | public/js/main.js:267-282 | the display the gate leaves behind is sound: every error shown is the message its field's value earns |
| WhatsApp.KeepDigits | public/js/main.js:571 | `replace(/\D/g, '')` leaves only ASCII digits and is no longer than the input |
| WhatsApp.KeepDigitsOfNoDigits | public/js/main.js:571 | a value with no digit at all is stripped to the empty string |
| WhatsApp.KeepDigitsOfDigits | public/js/main.js:571 | removing non-digits from a string of digits changes nothing |
| WhatsApp.KeepDigitsConcat | public/js/main.js:571 | digits are kept in order: the digits of a concatenation are the digits of each part, concatenated |
| WhatsApp.FormatPhoneForWhatsApp | public/js/main.js:569-577 | the result has only ASCII digits and always starts with `57`; the input's digits are kept, prefixed with `57` only when they do not already start with it |
| WhatsApp.FormatPhoneIdempotent | public/js/main.js:569-577 | formatting a formatted number returns it unchanged |
| WhatsApp.GenerateWhatsAppLink | public/js/main.js:586-593 | every link starts with `https://wa.me/` |
| WhatsApp.LinkRoundTrip | public/js/main.js:586-593 | reading a generated link back yields the formatted number, and a text part exactly when a non-empty message was given, holding the encoded message |
| Divergence.ScriptPhoneStricter | public/js/main.js:310 | on a value without surrounding whitespace, a phone the script accepts is accepted by the React form |
| Divergence.ParenthesesDiverge | components/funeraria/Contacto.tsx:110 | `(300) 1234567` is accepted by the React form and rejected by the script |
| Divergence.EmailRulesCompared | public/js/main.js:316-322 | the two e-mail rules agree on non-blank values without surrounding whitespace; a blank e-mail is required by the React form and accepted by the script |
| Divergence.LeadingSpaceEmailDiverges | public/js/main.js:291 | `a@b.co` after any one whitespace character is accepted by the script (trimmed) and rejected by the React form (tested untrimmed); in a browser this happens with whitespace the `type="email"` sanitising keeps, such as U+000B or U+00A0 |
| Divergence.SubjectDiverges | public/js/main.js:324-329 | a blank subject is free in the React form and rejected by the script |
| Divergence.ShortNameDiverges | public/js/main.js:300-303 | a two-letter name satisfies the React form and gets the script's "minLength" message |

## Left out

- DOM access, CSS class toggling, `event.preventDefault`, React `useState` and rendering. The state is a plain record, and the script's error display is a map from field to the message shown.
- The script's null-element fallbacks (`field ? field.value.trim() : ''` and the guards in `showError`/`clearError`). All five inputs and their error elements are taken to be present.
- `setTimeout`, `debounce`, `throttle` and `requestAnimationFrame`. The five-second auto-dismiss is the explicit `Tick` event over a count of pending timers. Timer cancellation on unmount is not modelled, because the source has none.
- The delivery itself. In the source it is a simulated 1500 ms delay that never fails; its outcome is the parameter `delivered`. The script's `submitForm` body (button state, delay, `form.reset()`, console log) is I/O. `MainScript.SubmitGate` models only whether `submitForm` is called.
- The browser's value sanitising for `type="email"` inputs (components/funeraria/Contacto.tsx:296), which strips line breaks and leading and trailing ASCII whitespace (tab, line feed, form feed, carriage return, space) before `handleChange` sees the value. Field values are unconstrained strings here, so the e-mail lemmas also cover inputs a browser never delivers; of the leading whitespace they speak about, only whitespace other than tab, line feed, form feed, carriage return and space (for example U+000B, U+00A0, U+3000) reaches the handler in practice.
- `encodeURIComponent`, an ECMAScript built-in. It is the function parameter `enc`.
- `{ ...prev, [name]: undefined }` keeps the key with an `undefined` value. The model makes the entry absent, because the source only ever reads an entry through truthiness.
- React's asynchronous state batching. Updates inside one handler apply in program order.
- Lengths count Unicode scalar values (Dafny `char`), not UTF-16 code units. A character outside the Basic Multilingual Plane counts once here but twice in JavaScript.
- The mobile menu, sticky header, smooth scrolling, scroll animations and footer year. These are browser geometry or one-line toggles.
- The static content components and page files (`Planes`, `Servicios`, `QuienesSomos`, `Footer`, `Hero`, `WhatsAppButton`, `app/layout.tsx`, `app/page.tsx`, `app/head.tsx`). They hold markup and constant data only.

=== FILE: contacto.dfy ===
/** The React contact-form controller: `validateForm`, `handleChange` and the
    submission lifecycle of `handleSubmit`, as pure functions over an immutable
    state record. The delivery outcome is a parameter (`delivered`), and the
    five-second auto-dismiss of the success banner is an explicit `Tick` event
    that fires one pending timer. */
module Contacto {
  import opened Wrappers
  import opened Text
  import opened EmailSyntax
  import opened Fields

  const NombreRequerido: string := "El nombre es requerido"
  const EmailRequerido: string := "El correo electrónico es requerido"
  const EmailInvalido: string := "Ingrese un correo electrónico válido"
  const TelefonoInvalido: string := "Ingrese un número de teléfono válido"
  const MensajeRequerido: string := "El mensaje es requerido"

  /** The character class `[0-9\s\-+()]`. */
  predicate PhoneChar(c: char) {
    IsDigit(c) || IsWs(c) || c == '-' || c == '+' || c == '(' || c == ')'
  }

  /** `^[0-9\s\-+()]{7,15}$`. */
  predicate PhonePattern(s: string) {
    7 <= |s| <= 15 && forall i :: 0 <= i < |s| ==> PhoneChar(s[i])
  }

  /** `FormErrors`: an optional message for each validated field. The subject
      (`asunto`) has no entry at all. */
  datatype FormErrors = FormErrors(nombre: Option<string>, email: Option<string>, telefono: Option<string>, mensaje: Option<string>)
  {
    function Get(f: Field): Option<string> {
      match f
      case Nombre => nombre
      case Email => email
      case Telefono => telefono
      case Asunto => None
      case Mensaje => mensaje
    }

    /** `{ ...prev, [name]: undefined }`: the named entry becomes absent and the
        others keep their messages. */
    function Clear(f: Field): (r: FormErrors)
      ensures r.Get(f) == None
      ensures forall g :: g != f ==> r.Get(g) == Get(g)
    {
      match f
      case Nombre => this.(nombre := None)
      case Email => this.(email := None)
      case Telefono => this.(telefono := None)
      case Asunto => this
      case Mensaje => this.(mensaje := None)
    }

    /** `Object.keys(errors).length` of a map built by setting only the
        entries that carry a message. */
    function Size(): (n: nat)
      ensures n <= 4
      ensures n == 0 <==> this == FormErrors(None, None, None, None)
    {
      (if nombre.Some? then 1 else 0) + (if email.Some? then 1 else 0)
      + (if telefono.Some? then 1 else 0) + (if mensaje.Some? then 1 else 0)
    }
  }

  const NoErrors: FormErrors := FormErrors(None, None, None, None)

  /** The rule `validateForm` applies to one field. */
  function FieldError(f: Field, v: string): (r: Option<string>)
    ensures f == Nombre ==> (r == None <==> !AllWs(v)) && (r.Some? ==> r == Some(NombreRequerido))
    ensures f == Email ==> (r == None <==> EmailPattern(v))
    ensures f == Email && AllWs(v) ==> r == Some(EmailRequerido)
    ensures f == Email && !AllWs(v) && r.Some? ==> r == Some(EmailInvalido)
    ensures f == Telefono ==> (r == None <==> v == [] || PhonePattern(v)) && (r.Some? ==> r == Some(TelefonoInvalido))
    ensures f == Asunto ==> r == None
    ensures f == Mensaje ==> (r == None <==> !AllWs(v)) && (r.Some? ==> r == Some(MensajeRequerido))
  {
    BlankEmailNoMatch(v);
    match f
    case Nombre => if Trim(v) == [] then Some(NombreRequerido) else None
    case Email =>
      if Trim(v) == [] then Some(EmailRequerido)
      else if !EmailPattern(v) then Some(EmailInvalido)
      else None
    case Telefono => if v != [] && !PhonePattern(v) then Some(TelefonoInvalido) else None
    case Asunto => None
    case Mensaje => if Trim(v) == [] then Some(MensajeRequerido) else None
  }

  /** What the form requires of its values: a name and a message that are not
      blank, an e-mail matching the pattern, and a phone that is either empty
      or matches the phone pattern. The subject is free. */
  predicate Acceptable(d: FormData) {
    && Trim(d.nombre) != []
    && EmailPattern(d.email)
    && (d.telefono == [] || PhonePattern(d.telefono))
    && Trim(d.mensaje) != []
  }

  datatype Validation = Validation(ok: bool, errors: FormErrors)

  /** A blank e-mail never matches the pattern. */
  lemma BlankEmailNoMatch(e: string)
    ensures Trim(e) == [] ==> !EmailPattern(e)
  {
    if EmailPattern(e) {
      EmailPatternIsTight(e);
      TrimOfTight(e);
    }
  }

  /** Per field, the error map built from the rules: the helper for the
      contract of `ValidateForm`. */
  lemma RulesAgree(d: FormData, e: FormErrors)
    requires e == FormErrors(FieldError(Nombre, d.nombre), FieldError(Email, d.email),
                             FieldError(Telefono, d.telefono), FieldError(Mensaje, d.mensaje))
    ensures forall f :: e.Get(f) == FieldError(f, d.Get(f))
    ensures e == NoErrors <==> Acceptable(d)
  {
    forall f ensures e.Get(f) == FieldError(f, d.Get(f)) {
      match f
      case Nombre =>
      case Email =>
      case Telefono =>
      case Asunto =>
      case Mensaje =>
    }
    BlankEmailNoMatch(d.email);
  }

  /** `validateForm`: builds a fresh error map (replacing the old one whole)
      and reports whether it has no entries. */
  function ValidateForm(d: FormData): (r: Validation)
    ensures forall f :: r.errors.Get(f) == FieldError(f, d.Get(f))
    ensures r.ok <==> r.errors == NoErrors
    ensures r.ok <==> Acceptable(d)
  {
    var e := FormErrors(
      FieldError(Nombre, d.nombre), FieldError(Email, d.email),
      FieldError(Telefono, d.telefono), FieldError(Mensaje, d.mensaje));
    RulesAgree(d, e);
    Validation(e.Size() == 0, e)
  }

  /** A name error is reported exactly when the trimmed name is empty. */
  lemma NombreErrorIff(d: FormData)
    ensures ValidateForm(d).errors.nombre.Some? <==> Trim(d.nombre) == []
    ensures ValidateForm(d).errors.nombre.Some? ==> ValidateForm(d).errors.nombre == Some(NombreRequerido)
  {
    assert ValidateForm(d).errors.Get(Nombre) == FieldError(Nombre, d.nombre);
  }

  /** A blank e-mail is "required"; otherwise the UNTRIMMED value is tested
      against the pattern and a failure is "invalid". */
  lemma EmailErrorCases(d: FormData)
    ensures Trim(d.email) == [] ==> ValidateForm(d).errors.email == Some(EmailRequerido)
    ensures Trim(d.email) != [] ==>
      (ValidateForm(d).errors.email == Some(EmailInvalido) <==> !EmailPattern(d.email))
    ensures ValidateForm(d).errors.email == None <==> EmailPattern(d.email)
  {
    assert ValidateForm(d).errors.Get(Email) == FieldError(Email, d.email);
    if EmailPattern(d.email) {
      EmailPatternIsTight(d.email);
      TrimOfTight(d.email);
    }
  }

  /** Because the pattern is tested on the untrimmed value, an e-mail that
      reaches the handler with leading whitespace is reported invalid even if
      the rest is well formed. */
  lemma LeadingSpaceEmailInvalid(d: FormData)
    requires |d.email| > 0 && IsWs(d.email[0]) && !AllWs(d.email)
    ensures ValidateForm(d).errors.email == Some(EmailInvalido)
  {
    EmailErrorCases(d);
    if EmailPattern(d.email) {
      EmailPatternIsTight(d.email);
    }
  }

  /** An empty phone never errors; a non-empty one errors exactly when it is
      not 7 to 15 characters of digits, whitespace, `-`, `+`, `(` and `)`. */
  lemma TelefonoErrorIff(d: FormData)
    ensures d.telefono == [] ==> ValidateForm(d).errors.telefono == None
    ensures d.telefono != [] ==>
      (ValidateForm(d).errors.telefono.Some? <==> !(7 <= |d.telefono| <= 15 && forall i :: 0 <= i < |d.telefono| ==> PhoneChar(d.telefono[i])))
  {
    assert ValidateForm(d).errors.Get(Telefono) == FieldError(Telefono, d.telefono);
  }

  /** The subject never produces an error: the verdict and the error map do not
      depend on it at all. */
  lemma AsuntoIgnored(d: FormData, v: string)
    ensures ValidateForm(d.Set(Asunto, v)) == ValidateForm(d)
    ensures ValidateForm(d).errors.Get(Asunto) == None
  {
    var d' := d.Set(Asunto, v);
    assert d'.nombre == d.nombre && d'.email == d.email && d'.telefono == d.telefono && d'.mensaje == d.mensaje;
  }

  /** `submitStatus`: the banner shown above the form. `Failed` is the
      source's "error". */
  datatype SubmitStatus = Idle | Success | Failed

  /** The controller's state. `pendingDismiss` counts the five-second
      auto-dismiss timers that have been scheduled and have not fired yet. */
  datatype State = State(data: FormData, errors: FormErrors, isSubmitting: bool, status: SubmitStatus, pendingDismiss: nat)

  const Initial: State := State(InitialFormState, NoErrors, false, Idle, 0)

  /** `handleChange`: the named field takes the new value; its error, if it
      had one, is cleared; nothing else changes. */
  function HandleChange(s: State, f: Field, v: string): (r: State)
    ensures r.data.Get(f) == v
    ensures forall g :: g != f ==> r.data.Get(g) == s.data.Get(g)
    ensures r.errors.Get(f) == None
    ensures forall g :: g != f ==> r.errors.Get(g) == s.errors.Get(g)
    ensures r.isSubmitting == s.isSubmitting && r.status == s.status && r.pendingDismiss == s.pendingDismiss
  {
    var errors := if s.errors.Get(f).Some? then s.errors.Clear(f) else s.errors;
    s.(data := s.data.Set(f, v), errors := errors)
  }

  /** The synchronous part of `handleSubmit`, up to the `await`. The source
      itself does not test for re-entry here: the only guard is the submit
      button, which is disabled while `isSubmitting` holds
      (components/funeraria/Contacto.tsx:377). That guard is this `requires`. */
  function BeginSubmit(s: State): (r: State)
    requires !s.isSubmitting
    ensures r.errors == ValidateForm(s.data).errors
    ensures r.data == s.data && r.pendingDismiss == s.pendingDismiss
    ensures !Acceptable(s.data) ==> !r.isSubmitting && r.status == s.status
    ensures Acceptable(s.data) ==> r.isSubmitting && r.status == Idle && r.errors == NoErrors
  {
    var v := ValidateForm(s.data);
    if !v.ok then s.(errors := v.errors)
    else s.(errors := v.errors, isSubmitting := true, status := Idle)
  }

  /** The continuation of `handleSubmit` after the delivery settles. On
      success the form is reset and one dismiss timer is scheduled; on failure
      the values are kept. Either way the in-flight flag is released. */
  function FinishSubmit(s: State, delivered: bool): (r: State)
    requires s.isSubmitting
    ensures !r.isSubmitting && r.errors == s.errors
    ensures delivered ==> r.data == InitialFormState && r.status == Success && r.pendingDismiss == s.pendingDismiss + 1
    ensures !delivered ==> r.data == s.data && r.status == Failed && r.pendingDismiss == s.pendingDismiss
  {
    if delivered then
      s.(status := Success, data := InitialFormState, pendingDismiss := s.pendingDismiss + 1, isSubmitting := false)
    else
      s.(status := Failed, isSubmitting := false)
  }

  /** One auto-dismiss timer fires: the banner goes back to idle. With no timer
      pending there is nothing to fire. */
  function Dismiss(s: State): (r: State)
    ensures s.pendingDismiss > 0 ==> r == s.(status := Idle, pendingDismiss := s.pendingDismiss - 1)
    ensures s.pendingDismiss == 0 ==> r == s
  {
    if s.pendingDismiss == 0 then s
    else s.(status := Idle, pendingDismiss := s.pendingDismiss - 1)
  }

  /** `handleSubmit` run to completion with no other event in between. */
  function HandleSubmit(s: State, delivered: bool): (r: State)
    requires !s.isSubmitting
    ensures !r.isSubmitting
    ensures !Acceptable(s.data) ==>
      r == s.(errors := ValidateForm(s.data).errors) && r.errors != NoErrors
    ensures Acceptable(s.data) && delivered ==>
      r.data == InitialFormState && r.status == Success && r.errors == NoErrors
    ensures Acceptable(s.data) && !delivered ==>
      r.data == s.data && r.status == Failed && r.errors == NoErrors
  {
    var b := BeginSubmit(s);
    if b.isSubmitting then FinishSubmit(b, delivered) else b
  }

  /** After a successful submission, the dismiss tick returns the banner to
      idle and changes nothing else. */
  lemma DismissAfterSuccess(s: State)
    requires !s.isSubmitting && Acceptable(s.data)
    ensures var r := HandleSubmit(s, true);
      Dismiss(r) == r.(status := Idle, pendingDismiss := r.pendingDismiss - 1)
  {
    var r := HandleSubmit(s, true);
    assert r.pendingDismiss == s.pendingDismiss + 1;
  }

  /** Events the controller reacts to. `Deliver` is the delivery settling with
      the given outcome; `Tick` is one auto-dismiss timer firing. */
  datatype Event = Change(field: Field, value: string) | Submit | Deliver(delivered: bool) | Tick

  /** One event. A click on the disabled submit button does nothing, and a
      delivery outcome with no submission in flight has no continuation to
      resume. */
  function Step(s: State, e: Event): (r: State)
    ensures e.Change? ==>
      && r.data.Get(e.field) == e.value && r.errors.Get(e.field) == None
      && r.isSubmitting == s.isSubmitting && r.status == s.status
    ensures e.Submit? && s.isSubmitting ==> r == s
    ensures e.Submit? && !s.isSubmitting ==>
      r.data == s.data && r.errors == ValidateForm(s.data).errors && (r.isSubmitting <==> Acceptable(s.data))
    ensures e.Deliver? && !s.isSubmitting ==> r == s
    ensures e.Deliver? && s.isSubmitting ==> !r.isSubmitting && (r.status == Success <==> e.delivered)
    ensures e.Tick? ==>
      && r.data == s.data && r.errors == s.errors && r.isSubmitting == s.isSubmitting
      && (s.pendingDismiss > 0 ==> r.status == Idle)
  {
    match e
    case Change(f, v) => HandleChange(s, f, v)
    case Submit => if s.isSubmitting then s else BeginSubmit(s)
    case Deliver(ok) => if s.isSubmitting then FinishSubmit(s, ok) else s
    case Tick => Dismiss(s)
  }

  function Run(s: State, es: seq<Event>): State
    decreases |es|
  {
    if es == [] then s else Run(Step(s, es[0]), es[1..])
  }

  /** Every error on display is the message the field's current value earns. */
  predicate ErrorsSound(s: State) {
    forall f :: s.errors.Get(f).Some? ==> s.errors.Get(f) == FieldError(f, s.data.Get(f))
  }

  /** The controller invariant: displayed errors are sound, and while a
      submission is in flight no error and no banner is shown. */
  predicate Inv(s: State) {
    && ErrorsSound(s)
    && (s.isSubmitting ==> s.errors == NoErrors && s.status == Idle)
  }

  lemma InitialInv()
    ensures Inv(Initial)
  {
  }

  lemma StepInv(s: State, e: Event)
    requires Inv(s)
    ensures Inv(Step(s, e))
  {
    match e
    case Change(f, v) =>
      var r := HandleChange(s, f, v);
      forall g | r.errors.Get(g).Some? ensures r.errors.Get(g) == FieldError(g, r.data.Get(g)) {
        assert g != f;
      }
    case Submit =>
      if !s.isSubmitting {
        var r := BeginSubmit(s);
        assert r.data == s.data;
      }
    case Deliver(ok) =>
    case Tick =>
  }

  /** The invariant holds in every state reachable from the initial one. */
  lemma {:induction false} RunInv(s: State, es: seq<Event>)
    requires Inv(s)
    ensures Inv(Run(s, es))
    decreases |es|
  {
    if es != [] {
      StepInv(s, es[0]);
      RunInv(Step(s, es[0]), es[1..]);
    }
  }

  /** A dismiss timer scheduled by an earlier success is not cancelled by a
      later submission: if that submission fails, the timer still fires and
      hides the error banner. */
  lemma StaleDismissHidesError(s: State)
    requires !s.isSubmitting && Acceptable(s.data) && s.pendingDismiss == 1
    ensures var r := Run(s, [Submit, Deliver(false)]);
      r.status == Failed && Dismiss(r).status == Idle
  {
    var b := Step(s, Submit);
    var r := Step(b, Deliver(false));
    assert Run(s, [Submit, Deliver(false)]) == Run(r, []);
  }

  /** The dismiss timer of an earlier success, still pending, also cuts a
      later success banner short: when it fires, the new banner goes back to
      idle while the new banner's own timer has not fired yet. */
  lemma StaleDismissEndsSecondSuccess(s: State)
    requires !s.isSubmitting && Acceptable(s.data) && s.pendingDismiss > 0
    ensures var r := Run(s, [Submit, Deliver(true)]);
      && r.status == Success && r.pendingDismiss == s.pendingDismiss + 1
      && Dismiss(r).status == Idle && Dismiss(r).pendingDismiss > 0
  {
    var b := Step(s, Submit);
    var r := Step(b, Deliver(true));
    assert Run(s, [Submit, Deliver(true)]) == Run(r, []);
  }

  /** A submission with a blank name is blocked: the name error is shown and
      the banner is left as it was. */
  lemma BlankNameBlocks(s: State)
    requires !s.isSubmitting && AllWs(s.data.nombre)
    ensures var r := Step(s, Submit);
      && !r.isSubmitting && r.errors.nombre == Some(NombreRequerido)
      && r.status == s.status && r.data == s.data
  {
    assert ValidateForm(s.data).errors.Get(Nombre) == FieldError(Nombre, s.data.nombre);
  }

  /** A non-blank e-mail that does not match the pattern is reported as
      invalid and blocks the submission. */
  lemma MalformedEmailBlocks(s: State)
    requires !s.isSubmitting && !AllWs(s.data.email) && !EmailPattern(s.data.email)
    ensures var r := Step(s, Submit);
      && !r.isSubmitting && r.errors.email == Some(EmailInvalido)
      && r.status == s.status && r.data == s.data
  {
    assert ValidateForm(s.data).errors.Get(Email) == FieldError(Email, s.data.email);
  }

  /** `not-an-email` is such an e-mail. */
  lemma NotAnEmail()
    ensures !AllWs("not-an-email") && !EmailPattern("not-an-email")
  {
    var e := "not-an-email";
    assert e[0] == 'n';
    assert forall k :: 0 <= k < |e| ==> e[k] != '@';
  }

  lemma SampleEmailMatches()
    ensures EmailPattern("jane@example.com")
  {
    var e := "jane@example.com";
    assert e[4] == '@' && e[12] == '.';
    assert AllPlain(e[..4]) by { assert e[..4] == "jane"; }
    assert AllPlain(e[5..12]) by { assert e[5..12] == "example"; }
    assert AllPlain(e[13..]) by { assert e[13..] == "com"; }
    assert MatchesAt(e, 4, 12);
  }

  /** A string whose first character is not whitespace is not blank. */
  lemma NotBlank(s: string)
    requires |s| > 0 && !IsWs(s[0])
    ensures Trim(s) != []
  {
  }

  /** The sample values of a complete, well-formed submission. */
  lemma SampleAcceptable()
    ensures Acceptable(FormData("Jane Doe", "jane@example.com", "", "", "Please contact me"))
  {
    SampleEmailMatches();
    NotBlank("Jane Doe");
    NotBlank("Please contact me");
  }

  /** The lifecycle of a submission of acceptable values, event by event:
      submitting, then success with the form cleared and idle again once the
      dismiss timer fires; or, with a failed delivery, the error banner with
      the typed values kept. */
  lemma SubmissionLifecycle(s: State)
    requires !s.isSubmitting && Acceptable(s.data)
    ensures Step(s, Submit).isSubmitting && Step(s, Submit).status == Idle
    ensures var r := Run(s, [Submit, Deliver(true)]);
      r.status == Success && r.data == InitialFormState && r.errors == NoErrors && !r.isSubmitting
      && Dismiss(r).status == Idle
    ensures var r := Run(s, [Submit, Deliver(false)]);
      r.status == Failed && r.data == s.data && r.errors == NoErrors && !r.isSubmitting
  {
    var b := Step(s, Submit);
    assert b.isSubmitting;
    assert Run(s, [Submit, Deliver(true)]) == Step(b, Deliver(true)) by {
      assert [Submit, Deliver(true)][1..] == [Deliver(true)];
      assert [Deliver(true)][1..] == [];
    }
    assert Run(s, [Submit, Deliver(false)]) == Step(b, Deliver(false)) by {
      assert [Submit, Deliver(false)][1..] == [Deliver(false)];
      assert [Deliver(false)][1..] == [];
    }
  }

  /** A fresh form filled with well-formed sample values. */
  const SampleState: State := Initial.(data := FormData("Jane Doe", "jane@example.com", "", "", "Please contact me"))

  /** The sample submission goes in flight and, once delivered, ends in
      success with the form reset. */
  lemma SampleLifecycle()
    ensures Step(SampleState, Submit).isSubmitting
    ensures Step(Step(SampleState, Submit), Deliver(true)).data == InitialFormState
    ensures Step(Step(SampleState, Submit), Deliver(true)).status == Success
  {
    SampleAcceptable();
    SubmissionLifecycle(SampleState);
  }
}

=== FILE: divergence.dfy ===
/** The React form and the page script validate the same five fields with two
    different rule sets. These lemmas pin down where they agree and exhibit
    inputs on which they disagree. */
module Divergence {
  import opened Wrappers
  import opened Text
  import opened EmailSyntax
  import opened Fields
  import Contacto
  import MainScript

  /** On a value without surrounding whitespace, a phone the script accepts is
      accepted by the React form too: the script's character class is the
      React one without parentheses. */
  lemma ScriptPhoneStricter(v: string)
    requires Tight(v)
    requires MainScript.FieldCheck(Telefono, v).isValid
    ensures Contacto.FieldError(Telefono, v) == None
  {
    TrimOfTight(v);
  }

  /** A phone with parentheses is accepted by the React form and rejected by
      the script. */
  lemma ParenthesesDiverge()
    ensures Contacto.FieldError(Telefono, "(300) 1234567") == None
    ensures !MainScript.FieldCheck(Telefono, "(300) 1234567").isValid
  {
    var v := "(300) 1234567";
    assert Contacto.PhonePattern(v);
    TrimOfTight(v);
    assert !MainScript.PhoneChar(v[0]);
  }

  /** On a non-blank e-mail without surrounding whitespace the two forms
      agree; a blank one is required by the React form and accepted by the
      script. */
  lemma EmailRulesCompared(v: string)
    ensures Tight(v) && v != [] ==>
      (Contacto.FieldError(Email, v) == None <==> MainScript.FieldCheck(Email, v).isValid)
    ensures AllWs(v) ==>
      Contacto.FieldError(Email, v) == Some(Contacto.EmailRequerido) && MainScript.FieldCheck(Email, v).isValid
  {
    if Tight(v) {
      TrimOfTight(v);
    }
    if EmailPattern(v) {
      EmailPatternIsTight(v);
      TrimOfTight(v);
    }
  }

  lemma ShortEmailMatches()
    ensures EmailPattern("a@b.co")
  {
    var e := "a@b.co";
    assert e[1] == '@' && e[3] == '.';
    assert AllPlain(e[..1]) by { assert e[..1] == "a"; }
    assert AllPlain(e[2..3]) by { assert e[2..3] == "b"; }
    assert AllPlain(e[4..]) by { assert e[4..] == "co"; }
    assert MatchesAt(e, 1, 3);
  }

  /** A well-formed e-mail that reaches the handlers after one whitespace
      character: the script trims it and accepts it, the React form tests it
      untrimmed and rejects it. The browser's sanitising of `type="email"`
      values strips only tab, line feed, form feed, carriage return and space,
      so this happens in practice with, for example, a line tabulation
      (U+000B) or a no-break space (U+00A0). */
  lemma LeadingSpaceEmailDiverges(c: char)
    requires IsWs(c)
    ensures Contacto.FieldError(Email, [c] + "a@b.co") == Some(Contacto.EmailInvalido)
    ensures MainScript.FieldCheck(Email, [c] + "a@b.co").isValid
  {
    var v := [c] + "a@b.co";
    ShortEmailMatches();
    EmailPatternIsTight("a@b.co");
    TrimOfPadded([c], "a@b.co", []);
    assert [c] + "a@b.co" + [] == v;
    assert Trim(v) != [];
    assert !EmailPattern(v) by {
      if EmailPattern(v) { EmailPatternIsTight(v); }
    }
  }

  /** The subject is free in the React form and required by the script. */
  lemma SubjectDiverges(v: string)
    requires AllWs(v)
    ensures Contacto.FieldError(Asunto, v) == None
    ensures !MainScript.FieldCheck(Asunto, v).isValid
  {
  }

  /** A two-letter name satisfies the React form and is too short for the
      script. */
  lemma ShortNameDiverges()
    ensures Contacto.FieldError(Nombre, "Al") == None
    ensures MainScript.FieldCheck(Nombre, "Al") == MainScript.Check(false, MainScript.NombreMinLength)
  {
    TrimOfTight("Al");
  }
}

=== FILE: email.dfy ===
/** The e-mail pattern `^[^\s@]+@[^\s@]+\.[^\s@]+$`, which both versions of the
    contact form test against. `EmailPattern` is the language the regular
    expression denotes (a split of the string into its five pieces);
    `IsEmailShape` is the same language described by its visible features; the
    two are proved equal. */
module EmailSyntax {
  import opened Text

  /** The character class `[^\s@]`. */
  predicate Plain(c: char) {
    !IsWs(c) && c != '@'
  }

  predicate AllPlain(s: string) {
    forall i :: 0 <= i < |s| ==> Plain(s[i])
  }

  /** `s` splits as local `@` host `.` tld at positions `k` and `m`, every
      piece being a non-empty run of `[^\s@]`. */
  predicate MatchesAt(s: string, k: int, m: int) {
    && 0 < k && k + 1 < m && m + 1 < |s|
    && s[k] == '@' && s[m] == '.'
    && AllPlain(s[..k]) && AllPlain(s[k + 1..m]) && AllPlain(s[m + 1..])
  }

  /** `RegExp.prototype.test` of the e-mail pattern: some split succeeds. */
  predicate EmailPattern(s: string) {
    exists k, m | 0 <= k < |s| && 0 <= m < |s| :: MatchesAt(s, k, m)
  }

  /** Some `.` in `d` has at least one character on each side. */
  predicate HasInnerDot(d: string) {
    exists i | 0 < i < |d| - 1 :: d[i] == '.'
  }

  /** No whitespace anywhere, exactly one `@`, a non-empty local part, and a
      domain with an inner dot. */
  predicate IsEmailShape(s: string) {
    && NoWs(s)
    && CountOf(s, '@') == 1
    && var k := IndexOf(s, '@');
       0 < k && HasInnerDot(s[k + 1..])
  }

  /** The e-mail pattern matches exactly the strings of e-mail shape. */
  lemma EmailPatternIsShape(s: string)
    ensures EmailPattern(s) <==> IsEmailShape(s)
  {
    if EmailPattern(s) {
      var k, m :| 0 <= k < |s| && 0 <= m < |s| && MatchesAt(s, k, m);
      PatternGivesShape(s, k, m);
    }
    if IsEmailShape(s) {
      ShapeGivesPattern(s);
    }
  }

  lemma NoAtInPlain(x: string)
    requires AllPlain(x)
    ensures CountOf(x, '@') == 0
  {
    assert forall i :: 0 <= i < |x| ==> x[i] != '@';
  }

  lemma NoWsInPlain(x: string)
    requires AllPlain(x)
    ensures NoWs(x)
  {
  }

  /** Whitespace-freedom of a concatenation, piece by piece. */
  lemma NoWsConcat(a: string, b: string)
    requires NoWs(a) && NoWs(b)
    ensures NoWs(a + b)
  {
    forall i | 0 <= i < |a + b| ensures !IsWs((a + b)[i]) {
      if i >= |a| { assert (a + b)[i] == b[i - |a|]; }
    }
  }

  lemma PatternGivesShape(s: string, k: int, m: int)
    requires MatchesAt(s, k, m)
    ensures IsEmailShape(s)
  {
    var local, host, tld := s[..k], s[k + 1..m], s[m + 1..];
    var rest := ['@'] + (host + (['.'] + tld));
    assert s == local + rest;
    NoWsInPlain(local);
    NoWsInPlain(host);
    NoWsInPlain(tld);
    NoWsConcat(['.'], tld);
    NoWsConcat(host, ['.'] + tld);
    NoWsConcat(['@'], host + (['.'] + tld));
    NoWsConcat(local, rest);
    NoAtInPlain(local);
    NoAtInPlain(host);
    NoAtInPlain(tld);
    CountOfConcat(['.'], tld, '@');
    CountOfConcat(host, ['.'] + tld, '@');
    CountOfConcat(['@'], host + (['.'] + tld), '@');
    CountOfConcat(local, rest, '@');
    assert CountOf(s, '@') == 1;
    var j := IndexOf(s, '@');
    assert j == k;
    var d := s[k + 1..];
    assert d[m - k - 1] == '.';
    assert HasInnerDot(d);
  }

  lemma ShapeGivesPattern(s: string)
    requires IsEmailShape(s)
    ensures EmailPattern(s)
  {
    var k := IndexOf(s, '@');
    var d := s[k + 1..];
    var i :| 0 < i < |d| - 1 && d[i] == '.';
    var m := k + 1 + i;
    assert s == s[..k] + [s[k]] + d;
    CountOfConcat(s[..k] + [s[k]], d, '@');
    CountOfConcat(s[..k], [s[k]], '@');
    assert '@' !in d;
    forall j | 0 <= j < |s| && j != k ensures Plain(s[j]) {
      if j > k { assert s[j] == d[j - k - 1]; }
      else { assert s[j] == s[..k][j]; }
    }
    var local, host, tld := s[..k], s[k + 1..m], s[m + 1..];
    assert AllPlain(local) by {
      forall j | 0 <= j < |local| ensures Plain(local[j]) { assert local[j] == s[j]; }
    }
    assert AllPlain(host) by {
      forall j | 0 <= j < |host| ensures Plain(host[j]) { assert host[j] == s[k + 1 + j]; }
    }
    assert AllPlain(tld) by {
      forall j | 0 <= j < |tld| ensures Plain(tld[j]) { assert tld[j] == s[m + 1 + j]; }
    }
    assert MatchesAt(s, k, m);
  }

  /** An e-mail match has no whitespace at its ends, so trimming leaves it
      unchanged. */
  lemma EmailPatternIsTight(s: string)
    requires EmailPattern(s)
    ensures Tight(s) && s != []
  {
    var k, m :| 0 <= k < |s| && 0 <= m < |s| && MatchesAt(s, k, m);
    assert s[0] == s[..k][0];
    assert s[|s| - 1] == s[m + 1..][|s| - m - 2];
  }
}

=== FILE: fields.dfy ===
/** The five inputs of the contact form and a record of their values. Both
    versions of the form use the same field names. */
module Fields {

  datatype Field = Nombre | Email | Telefono | Asunto | Mensaje

  const AllFields: set<Field> := {Nombre, Email, Telefono, Asunto, Mensaje}

  lemma AllFieldsComplete(f: Field)
    ensures f in AllFields
  {
  }

  /** The value of every field, as the user typed it (untrimmed). */
  datatype FormData = FormData(nombre: string, email: string, telefono: string, asunto: string, mensaje: string)
  {
    function Get(f: Field): string {
      match f
      case Nombre => nombre
      case Email => email
      case Telefono => telefono
      case Asunto => asunto
      case Mensaje => mensaje
    }

    /** `{ ...prev, [name]: value }`: the named field takes the new value and
        every other field keeps its own. */
    function Set(f: Field, v: string): (r: FormData)
      ensures r.Get(f) == v
      ensures forall g :: g != f ==> r.Get(g) == Get(g)
    {
      match f
      case Nombre => this.(nombre := v)
      case Email => this.(email := v)
      case Telefono => this.(telefono := v)
      case Asunto => this.(asunto := v)
      case Mensaje => this.(mensaje := v)
    }
  }

  /** `initialFormState`: every field empty. */
  const InitialFormState: FormData := FormData("", "", "", "", "")
}

=== FILE: mainscript.dfy ===
/** The contact form of the standalone page script: the per-field validator
    with its own rule set (values are trimmed first; phone and subject are
    required; e-mail is optional; name and message have minimum lengths), the
    error display it shows and clears, and the submit gate that validates every
    field. All five inputs are taken to be present on the page. */
module MainScript {
  import opened Text
  import opened EmailSyntax
  import opened Fields

  // ERROR_MESSAGES
  const NombreRequired: string := "Por favor, ingrese su nombre completo"
  const NombreMinLength: string := "El nombre debe tener al menos 3 caracteres"
  const TelefonoRequired: string := "Por favor, ingrese su número de teléfono"
  const TelefonoPatternMsg: string := "Por favor, ingrese un número de teléfono válido"
  const EmailInvalid: string := "Por favor, ingrese un correo electrónico válido"
  const AsuntoRequired: string := "Por favor, seleccione un asunto"
  const MensajeRequired: string := "Por favor, escriba su mensaje"
  const MensajeMinLength: string := "El mensaje debe tener al menos 10 caracteres"

  /** The character class `[0-9\s\-\+]`: unlike the React form, no parentheses. */
  predicate PhoneChar(c: char) {
    IsDigit(c) || IsWs(c) || c == '-' || c == '+'
  }

  /** `^[0-9\s\-\+]{7,15}$`. */
  predicate PhonePattern(s: string) {
    7 <= |s| <= 15 && forall i :: 0 <= i < |s| ==> PhoneChar(s[i])
  }

  /** The two locals of `validateField` after its `switch`. */
  datatype Check = Check(isValid: bool, errorMessage: string)

  /** The `switch` of `validateField`, applied to the trimmed value. */
  function CheckTrimmed(f: Field, value: string): (r: Check)
    ensures r.isValid <==> r.errorMessage == ""
  {
    match f
    case Nombre =>
      if value == [] then Check(false, NombreRequired)
      else if |value| < 3 then Check(false, NombreMinLength)
      else Check(true, "")
    case Telefono =>
      if value == [] then Check(false, TelefonoRequired)
      else if !PhonePattern(value) then Check(false, TelefonoPatternMsg)
      else Check(true, "")
    case Email =>
      if value != [] && !EmailPattern(value) then Check(false, EmailInvalid)
      else Check(true, "")
    case Asunto =>
      if value == [] then Check(false, AsuntoRequired) else Check(true, "")
    case Mensaje =>
      if value == [] then Check(false, MensajeRequired)
      else if |value| < 10 then Check(false, MensajeMinLength)
      else Check(true, "")
  }

  /** The verdict of `validateField` on a raw input value: trimmed first. */
  function FieldCheck(f: Field, raw: string): Check {
    CheckTrimmed(f, Trim(raw))
  }

  /** The verdict on a raw value is valid exactly when no message is chosen;
      a value without surrounding whitespace is judged as typed, and an
      all-whitespace one as empty. */
  lemma FieldCheckTightOrBlank(f: Field, raw: string)
    ensures FieldCheck(f, raw).isValid <==> FieldCheck(f, raw).errorMessage == ""
    ensures Tight(raw) ==> FieldCheck(f, raw) == CheckTrimmed(f, raw)
    ensures AllWs(raw) ==> FieldCheck(f, raw) == CheckTrimmed(f, [])
  {
    if Tight(raw) {
      TrimOfTight(raw);
    }
  }

  /** Whitespace typed around a value never changes its verdict or message. */
  lemma FieldCheckIgnoresPadding(f: Field, a: string, t: string, b: string)
    requires AllWs(a) && AllWs(b) && Tight(t)
    ensures FieldCheck(f, a + t + b) == FieldCheck(f, t)
  {
    TrimOfPadded(a, t, b);
  }

  /** Name: blank is "required", one or two characters is "minLength", three
      or more is valid. */
  lemma NombreRule(raw: string)
    ensures var v := Trim(raw);
      && (v == [] ==> FieldCheck(Nombre, raw) == Check(false, NombreRequired))
      && (1 <= |v| <= 2 ==> FieldCheck(Nombre, raw) == Check(false, NombreMinLength))
      && (FieldCheck(Nombre, raw).isValid <==> |v| >= 3)
  {
  }

  /** Phone: required, then 7 to 15 characters of digits, whitespace, `-` or
      `+`; in particular any parenthesis makes it invalid. */
  lemma TelefonoRule(raw: string)
    ensures var v := Trim(raw);
      && (v == [] ==> FieldCheck(Telefono, raw) == Check(false, TelefonoRequired))
      && (FieldCheck(Telefono, raw).isValid <==>
            7 <= |v| <= 15 && forall i :: 0 <= i < |v| ==> PhoneChar(v[i]))
      && ('(' in v || ')' in v ==> !FieldCheck(Telefono, raw).isValid)
  {
  }

  /** E-mail is optional: blank is valid, otherwise the trimmed value must
      match the pattern. */
  lemma EmailRule(raw: string)
    ensures Trim(raw) == [] ==> FieldCheck(Email, raw).isValid
    ensures Trim(raw) != [] ==>
      (FieldCheck(Email, raw).isValid <==> EmailPattern(Trim(raw)))
    ensures !FieldCheck(Email, raw).isValid ==> FieldCheck(Email, raw).errorMessage == EmailInvalid
  {
  }

  /** Subject: valid exactly when not blank. Message: valid exactly when at
      least ten characters remain after trimming. */
  lemma AsuntoMensajeRules(raw: string)
    ensures FieldCheck(Asunto, raw).isValid <==> Trim(raw) != []
    ensures FieldCheck(Mensaje, raw).isValid <==> |Trim(raw)| >= 10
    ensures Trim(raw) == [] ==> FieldCheck(Mensaje, raw) == Check(false, MensajeRequired)
  {
  }

  /** The page: the inputs' values and, per field, the error message on
      display (a field without an entry shows no error). */
  datatype Page = Page(values: FormData, shown: map<Field, string>)

  /** `showError`: the field's error is displayed with the message. */
  function ShowError(shown: map<Field, string>, f: Field, message: string): (r: map<Field, string>)
    ensures f in r && r[f] == message
    ensures forall g :: g != f ==> (g in r <==> g in shown) && (g in shown ==> r[g] == shown[g])
  {
    shown[f := message]
  }

  /** `clearError`: the field's error display is removed. */
  function ClearError(shown: map<Field, string>, f: Field): (r: map<Field, string>)
    ensures f !in r
    ensures forall g :: g != f ==> (g in r <==> g in shown) && (g in shown ==> r[g] == shown[g])
  {
    shown - {f}
  }

  /** `validateField`: checks the field's trimmed value and applies exactly
      one of showing or clearing its error; returns whether it is valid. */
  function ValidateField(p: Page, f: Field): (r: (bool, Page))
    ensures r.1.values == p.values
    ensures r.0 <==> FieldCheck(f, p.values.Get(f)).isValid
    ensures r.0 ==> f !in r.1.shown
    ensures !r.0 ==> f in r.1.shown && r.1.shown[f] == FieldCheck(f, p.values.Get(f)).errorMessage && r.1.shown[f] != ""
    ensures forall g :: g != f ==> (g in r.1.shown <==> g in p.shown) && (g in p.shown ==> r.1.shown[g] == p.shown[g])
  {
    var c := FieldCheck(f, p.values.Get(f));
    if !c.isValid then (false, p.(shown := ShowError(p.shown, f, c.errorMessage)))
    else (true, p.(shown := ClearError(p.shown, f)))
  }

  /** Validating a field twice with its value unchanged gives the same verdict
      and the same display as validating it once. */
  lemma ValidateFieldIdempotent(p: Page, f: Field)
    ensures ValidateField(ValidateField(p, f).1, f) == ValidateField(p, f)
  {
    var q := ValidateField(p, f).1;
    var q2 := ValidateField(q, f).1;
    assert q2.shown == q.shown;
  }

  /** The `input` listener: the browser stores the typed value and the
      listener clears that field's error; every other field keeps both its
      value and its error display. */
  function OnInput(p: Page, f: Field, v: string): (r: Page)
    ensures r.values.Get(f) == v && f !in r.shown
    ensures forall g :: g != f ==> r.values.Get(g) == p.values.Get(g)
    ensures forall g :: g != f ==> (g in r.shown <==> g in p.shown) && (g in p.shown ==> r.shown[g] == p.shown[g])
  {
    Page(p.values.Set(f, v), ClearError(p.shown, f))
  }

  /** Every error on display is the message the field's current value earns. */
  predicate DisplaySound(p: Page) {
    forall f :: f in p.shown ==> !FieldCheck(f, p.values.Get(f)).isValid && p.shown[f] == FieldCheck(f, p.values.Get(f)).errorMessage
  }

  /** Blur validation and typing both keep the display sound. */
  lemma DisplaySoundPreserved(p: Page, f: Field, v: string)
    requires DisplaySound(p)
    ensures DisplaySound(ValidateField(p, f).1)
    ensures DisplaySound(OnInput(p, f, v))
  {
  }

  /** `Object.keys(fields)`: the order in which the gate visits the fields. */
  const FieldOrder: seq<Field> := [Nombre, Telefono, Email, Asunto, Mensaje]

  /** The display determined by the values alone: exactly the invalid fields
      show an error, each with its own message. */
  function Refreshed(values: FormData): map<Field, string> {
    map f | f in AllFields && !FieldCheck(f, values.Get(f)).isValid :: FieldCheck(f, values.Get(f)).errorMessage
  }

  /** A refreshed display is sound: after the gate, every error shown is the
      one its field's value earns. */
  lemma RefreshedSound(values: FormData)
    ensures DisplaySound(Page(values, Refreshed(values)))
  {
  }

  /** The display of field `f` is the one its value earns. */
  predicate Agrees(shown: map<Field, string>, values: FormData, f: Field) {
    var c := FieldCheck(f, values.Get(f));
    && (f in shown <==> !c.isValid)
    && (f in shown ==> shown[f] == c.errorMessage)
  }

  /** A display that agrees with the values on every field is the refreshed
      one. */
  lemma AgreesEverywhere(shown: map<Field, string>, values: FormData)
    requires forall f :: Agrees(shown, values, f)
    ensures shown == Refreshed(values)
  {
    var m := Refreshed(values);
    forall f ensures f in shown <==> f in m {
      AllFieldsComplete(f);
      assert Agrees(shown, values, f);
    }
    assert shown.Keys == m.Keys;
    forall f | f in shown ensures shown[f] == m[f] {
      assert Agrees(shown, values, f);
    }
  }

  /** After the gate's loop has visited every field in `FieldOrder`, every
      field has been visited. */
  lemma OrderCoversAll(f: Field)
    ensures exists j :: 0 <= j < |FieldOrder| && FieldOrder[j] == f
  {
    match f
    case Nombre => assert FieldOrder[0] == f;
    case Telefono => assert FieldOrder[1] == f;
    case Email => assert FieldOrder[2] == f;
    case Asunto => assert FieldOrder[3] == f;
    case Mensaje => assert FieldOrder[4] == f;
  }

  /** One round of the gate's loop extends the agreement to the field it
      validates and keeps it for the fields visited before. */
  lemma GateRound(r: Page, values: FormData, i: int)
    requires 0 <= i < |FieldOrder| && r.values == values
    requires forall j :: 0 <= j < i ==> Agrees(r.shown, values, FieldOrder[j])
    ensures forall j :: 0 <= j <= i ==> Agrees(ValidateField(r, FieldOrder[i]).1.shown, values, FieldOrder[j])
  {
    var n := ValidateField(r, FieldOrder[i]).1;
    forall j | 0 <= j <= i ensures Agrees(n.shown, values, FieldOrder[j]) {
      if j < i {
        assert FieldOrder[j] != FieldOrder[i];
        assert Agrees(r.shown, values, FieldOrder[j]);
      }
    }
  }

  /** Once the loop has visited every position of `FieldOrder`, the display
      is the refreshed one and the flag is the conjunction of all verdicts. */
  lemma GateDone(r: Page, values: FormData, isValid: bool)
    requires forall j :: 0 <= j < |FieldOrder| ==> Agrees(r.shown, values, FieldOrder[j])
    requires isValid <==> forall j :: 0 <= j < |FieldOrder| ==> FieldCheck(FieldOrder[j], values.Get(FieldOrder[j])).isValid
    ensures isValid <==> forall f :: FieldCheck(f, values.Get(f)).isValid
    ensures r.shown == Refreshed(values)
  {
    forall f ensures Agrees(r.shown, values, f) && (isValid ==> FieldCheck(f, values.Get(f)).isValid) {
      OrderCoversAll(f);
    }
    AgreesEverywhere(r.shown, values);
  }

  /** The `submit` listener's gate: every field is validated, with no
      short-circuit, so the whole display is refreshed from the values; the
      form is sent (`submitForm` runs) exactly when every field is valid. */
  method SubmitGate(p: Page) returns (submits: bool, r: Page)
    ensures r.values == p.values
    ensures submits <==> forall f :: FieldCheck(f, p.values.Get(f)).isValid
    ensures r.shown == Refreshed(p.values)
  {
    var isValid := true;
    r := p;
    var i := 0;
    while i < |FieldOrder|
      invariant 0 <= i <= |FieldOrder|
      invariant r.values == p.values
      invariant isValid <==> forall j :: 0 <= j < i ==> FieldCheck(FieldOrder[j], p.values.Get(FieldOrder[j])).isValid
      invariant forall j :: 0 <= j < i ==> Agrees(r.shown, p.values, FieldOrder[j])
    {
      var step := ValidateField(r, FieldOrder[i]);
      GateRound(r, p.values, i);
      if !step.0 {
        isValid := false;
      }
      r := step.1;
      i := i + 1;
    }
    submits := isValid;
    GateDone(r, p.values, isValid);
  }
}

=== FILE: text.dfy ===
/** Character classes and the whitespace trimming used by both versions of the
    contact form. JavaScript's `\s` and `String.prototype.trim` share one set of
    characters: the ECMAScript WhiteSpace and LineTerminator code points. */
module Text {

  /** JavaScript `\s`: tab, line tabulation (U+000B), form feed, space, no-break space, byte
      order mark, the Unicode space separators, and the four line terminators. */
  predicate IsWs(c: char) {
    || c == '\t' || c == '\n' || c == '\U{000B}' || c == '\U{000C}' || c == '\r'
    || c == ' ' || c == '\U{00A0}' || c == '\U{1680}'
    || ('\U{2000}' <= c <= '\U{200A}')
    || c == '\U{2028}' || c == '\U{2029}' || c == '\U{202F}' || c == '\U{205F}'
    || c == '\U{3000}' || c == '\U{FEFF}'
  }

  /** JavaScript `[0-9]` (and `\d`): ASCII digits only. */
  predicate IsDigit(c: char) {
    '0' <= c <= '9'
  }

  predicate AllWs(s: string) {
    forall i :: 0 <= i < |s| ==> IsWs(s[i])
  }

  predicate NoWs(s: string) {
    forall i :: 0 <= i < |s| ==> !IsWs(s[i])
  }

  predicate AllDigits(s: string) {
    forall i :: 0 <= i < |s| ==> IsDigit(s[i])
  }

  /** Neither end of `t` is whitespace (vacuously true of the empty string). */
  predicate Tight(t: string) {
    t == [] || (!IsWs(t[0]) && !IsWs(t[|t| - 1]))
  }

  /** Drops leading whitespace. */
  function TrimStart(s: string): (r: string)
    ensures |r| <= |s|
  {
    if |s| > 0 && IsWs(s[0]) then TrimStart(s[1..]) else s
  }

  /** Drops trailing whitespace. */
  function TrimEnd(s: string): (r: string)
    ensures |r| <= |s|
  {
    if |s| > 0 && IsWs(s[|s| - 1]) then TrimEnd(s[..|s| - 1]) else s
  }

  /** `TrimStart` returns a suffix of `s`, everything it drops is whitespace,
      and what it returns does not start with whitespace. */
  lemma {:induction false} TrimStartSpec(s: string)
    ensures var r := TrimStart(s);
      && r == s[|s| - |r|..]
      && AllWs(s[..|s| - |r|])
      && (r == [] || !IsWs(r[0]))
  {
    if |s| > 0 && IsWs(s[0]) {
      TrimStartSpec(s[1..]);
      var r := TrimStart(s);
      assert s[..|s| - |r|] == [s[0]] + s[1..][..|s| - 1 - |r|];
    }
  }

  /** `TrimEnd` returns a prefix of `s`, everything it drops is whitespace,
      and what it returns does not end with whitespace. */
  lemma {:induction false} TrimEndSpec(s: string)
    ensures var r := TrimEnd(s);
      && r == s[..|r|]
      && AllWs(s[|r|..])
      && (r == [] || !IsWs(r[|r| - 1]))
  {
    if |s| > 0 && IsWs(s[|s| - 1]) {
      var p := s[..|s| - 1];
      TrimEndSpec(p);
      var r := TrimEnd(p);
      assert s[|r|..] == p[|r|..] + [s[|s| - 1]];
    }
  }

  /** `String.prototype.trim`: the core is tight, no longer than `s`, and
      empty exactly when `s` is all whitespace. */
  function Trim(s: string): (r: string)
    ensures Tight(r)
    ensures r == [] <==> AllWs(s)
    ensures |r| <= |s|
  {
    TrimDecomposition(s);
    TrimEnd(TrimStart(s))
  }

  /** `s` is its trimmed core with whitespace on both sides: the core starts
      where the leading whitespace ends. */
  lemma TrimDecomposition(s: string)
    ensures var i := |s| - |TrimStart(s)|;
      var r := TrimEnd(TrimStart(s));
      && i + |r| <= |s|
      && r == s[i..i + |r|]
      && AllWs(s[..i])
      && AllWs(s[i + |r|..])
      && Tight(r)
      && (r == [] <==> AllWs(s))
  {
    var t := TrimStart(s);
    TrimStartSpec(s);
    TrimEndSpec(t);
    var r := TrimEnd(t);
    var i := |s| - |t|;
    assert t[..|r|] == s[i..i + |r|];
    assert t[|r|..] == s[i + |r|..];
    assert r == [] ==> s == s[..i] + t;
    assert r != [] ==> r[0] == t[0];
  }

  /** Trimming is determined by the decomposition: whatever whitespace surrounds
      a tight core, trimming returns exactly that core. Together with the
      contract of `Trim` this characterises it completely. */
  lemma {:induction false} TrimOfPadded(a: string, t: string, b: string)
    requires AllWs(a) && AllWs(b) && Tight(t)
    ensures Trim(a + t + b) == t
  {
    var s := a + t + b;
    if t == [] {
      assert AllWs(s) by { assert forall i :: 0 <= i < |s| ==> s[i] == if i < |a| then a[i] else b[i - |a|]; }
    } else {
      TrimStartOfPadded(a, t + b);
      assert TrimStart(s) == t + b by { assert s == a + (t + b); }
      TrimEndOfPadded(t, b);
    }
  }

  lemma {:induction false} TrimStartOfPadded(a: string, u: string)
    requires AllWs(a)
    requires u == [] || !IsWs(u[0])
    ensures TrimStart(a + u) == u
  {
    if a != [] {
      assert (a + u)[1..] == a[1..] + u;
      TrimStartOfPadded(a[1..], u);
    }
  }

  lemma {:induction false} TrimEndOfPadded(u: string, b: string)
    requires AllWs(b)
    requires u == [] || !IsWs(u[|u| - 1])
    requires u != [] || b == []
    ensures TrimEnd(u + b) == u
  {
    if b != [] {
      assert (u + b)[..|u + b| - 1] == u + b[..|b| - 1];
      TrimEndOfPadded(u, b[..|b| - 1]);
    } else {
      assert u + b == u;
    }
  }

  /** Trimming twice is trimming once. */
  lemma TrimIdempotent(s: string)
    ensures Trim(Trim(s)) == Trim(s)
  {
    var t := Trim(s);
    TrimOfPadded([], t, []);
    assert [] + t + [] == t;
  }

  /** A string with no whitespace at its ends is its own trim. */
  lemma TrimOfTight(t: string)
    requires Tight(t)
    ensures Trim(t) == t
  {
    TrimOfPadded([], t, []);
    assert [] + t + [] == t;
  }

  /** Number of occurrences of `c` in `s`. */
  function CountOf(s: string, c: char): (n: nat)
    ensures n <= |s|
    ensures n == 0 <==> c !in s
  {
    if s == [] then 0
    else (if s[0] == c then 1 else 0) + CountOf(s[1..], c)
  }

  /** Position of the first occurrence of `c` in `s`. */
  function IndexOf(s: string, c: char): (k: nat)
    requires c in s
    ensures k < |s|
    ensures s[k] == c
    ensures forall j :: 0 <= j < k ==> s[j] != c
  {
    if s[0] == c then 0
    else
      var k := 1 + IndexOf(s[1..], c);
      assert s[..k] == [s[0]] + s[1..][..k - 1];
      k
  }

  lemma {:induction false} CountOfConcat(a: string, b: string, c: char)
    ensures CountOf(a + b, c) == CountOf(a, c) + CountOf(b, c)
  {
    if a == [] {
      assert a + b == b;
    } else {
      assert (a + b)[1..] == a[1..] + b;
      CountOfConcat(a[1..], b, c);
    }
  }
}

=== FILE: whatsapp.dfy ===
/** The WhatsApp helpers of the page script: normalising a phone number to
    digits with the Colombian country code, and building a `wa.me` link with an
    optional pre-filled message. URL encoding of the message is the ECMAScript
    built-in `encodeURIComponent`, which stays a parameter (`enc`). */
module WhatsApp {
  import opened Wrappers
  import opened Text

  /** Colombia's country calling code. */
  const CountryCode: string := "57"

  const LinkBase: string := "https://wa.me/"

  const TextParam: string := "?text="

  /** `phone.replace(/\D/g, '')`: the digits of `phone`, in order. */
  function KeepDigits(s: string): (r: string)
    ensures AllDigits(r) && |r| <= |s|
  {
    if s == [] then []
    else (if IsDigit(s[0]) then [s[0]] else []) + KeepDigits(s[1..])
  }

  /** Removing non-digits from a string of digits changes nothing. */
  lemma {:induction false} KeepDigitsOfDigits(s: string)
    requires AllDigits(s)
    ensures KeepDigits(s) == s
  {
    if s != [] {
      KeepDigitsOfDigits(s[1..]);
      assert s == [s[0]] + s[1..];
    }
  }

  /** A value with no digit at all has nothing left. */
  lemma {:induction false} KeepDigitsOfNoDigits(s: string)
    requires forall i :: 0 <= i < |s| ==> !IsDigit(s[i])
    ensures KeepDigits(s) == []
  {
    if s != [] {
      KeepDigitsOfNoDigits(s[1..]);
    }
  }

  /** Every digit of the input survives, in order: the digits kept from a
      concatenation are the digits kept from each part. */
  lemma {:induction false} KeepDigitsConcat(a: string, b: string)
    ensures KeepDigits(a + b) == KeepDigits(a) + KeepDigits(b)
  {
    if a == [] {
      assert a + b == b;
    } else {
      assert (a + b)[1..] == a[1..] + b;
      KeepDigitsConcat(a[1..], b);
    }
  }

  predicate StartsWithCountryCode(s: string) {
    |s| >= 2 && s[..2] == CountryCode
  }

  /** `formatPhoneForWhatsApp`: only ASCII digits, always starting with the
      country code, and either the input's digits or the country code followed
      by them. */
  function FormatPhoneForWhatsApp(phone: string): (r: string)
    ensures AllDigits(r)
    ensures StartsWithCountryCode(r)
    ensures StartsWithCountryCode(KeepDigits(phone)) ==> r == KeepDigits(phone)
    ensures !StartsWithCountryCode(KeepDigits(phone)) ==> r == CountryCode + KeepDigits(phone)
  {
    var cleaned := KeepDigits(phone);
    if !StartsWithCountryCode(cleaned) then
      assert (CountryCode + cleaned)[..2] == CountryCode;
      CountryCode + cleaned
    else cleaned
  }

  /** Formatting an already formatted number returns it unchanged. */
  lemma FormatPhoneIdempotent(phone: string)
    ensures FormatPhoneForWhatsApp(FormatPhoneForWhatsApp(phone)) == FormatPhoneForWhatsApp(phone)
  {
    KeepDigitsOfDigits(FormatPhoneForWhatsApp(phone));
  }

  /** `if (message)`: an absent (`undefined`) or empty message is falsy. */
  predicate HasMessage(message: Option<string>) {
    message.Some? && message.value != []
  }

  /** `generateWhatsAppLink`. */
  function GenerateWhatsAppLink(phone: string, message: Option<string>, enc: string -> string): (r: string)
    ensures |r| >= |LinkBase| && r[..|LinkBase|] == LinkBase
  {
    var url := LinkBase + FormatPhoneForWhatsApp(phone);
    if HasMessage(message) then url + TextParam + enc(message.value) else url
  }

  datatype Link = Link(phone: string, text: Option<string>)

  /** Reads a link back: the number is everything after the base up to the
      first `?`, and the text is what follows `?text=`. */
  function ParseLink(link: string): Option<Link> {
    if |link| < |LinkBase| || link[..|LinkBase|] != LinkBase then None
    else
      var rest := link[|LinkBase|..];
      if '?' !in rest then Some(Link(rest, None))
      else
        var q := IndexOf(rest, '?');
        if |rest[q..]| < |TextParam| || rest[q..][..|TextParam|] != TextParam then None
        else Some(Link(rest[..q], Some(rest[q + |TextParam|..])))
  }

  /** The link round-trips: reading it back gives the formatted number, and
      a text part exactly when a non-empty message was given, holding the
      encoded message. */
  lemma LinkRoundTrip(phone: string, message: Option<string>, enc: string -> string)
    ensures ParseLink(GenerateWhatsAppLink(phone, message, enc))
      == Some(Link(FormatPhoneForWhatsApp(phone), if HasMessage(message) then Some(enc(message.value)) else None))
  {
    var link := GenerateWhatsAppLink(phone, message, enc);
    var digits := FormatPhoneForWhatsApp(phone);
    assert forall i :: 0 <= i < |digits| ==> digits[i] != '?';
    var rest := link[|LinkBase|..];
    if HasMessage(message) {
      var tail := TextParam + enc(message.value);
      assert link == LinkBase + (digits + tail);
      assert rest == digits + tail;
      assert rest[|digits|] == '?';
      var q := IndexOf(rest, '?');
      assert q == |digits|;
      assert rest[q..] == tail;
      assert rest[..q] == digits;
    } else {
      assert rest == digits;
    }
  }
}

=== FILE: wrappers.dfy ===
/** The optional value used for a form field's error entry: `None` is an absent
    (or `undefined`) entry, `Some(m)` an entry holding the message `m`. */
module Wrappers {

  datatype Option<+T> = None | Some(value: T)
}
